=== FILE: README.md ===
# rusty_gol in Dafny

A model of the game-of-life engine of `rusty_gol`, a terminal program in
Rust. A `Game` holds a `height × width` matrix of cells on a torus. It counts
neighbours with wrap-around, applies the birth-on-3 / survive-on-2-or-3 rule
to every cell, and turns the grid into drawing instructions. Its `main`
function reacts to one input byte at a time and, once autoplay has started,
evolves and repaints the grid whenever more than 200 ms have passed.

Modules:

- `Terminal` (terminal.dfy): drawing instructions (`Clear`, `Goto(col, row)`,
  `Write(text)`, `Bold`, `ResetStyle`, `HideCursor`) in place of termion's
  escape sequences; input bytes; the decimal text that `write!("{}", b)`
  produces for a `u8`.
- `Torus` (torus.dfy): the grid as a value. It holds the wrapped window
  arithmetic done with Rust's truncating `%`, the neighbour count, the cell
  rule and the next generation.
- `Render` (render.dfy): the painted output of `paint_state` and the banner
  of `get_main_screen`.
- `Life` (game.dfy): the `Game` struct as a class. `GetNeighbours`, `Evolve`
  and `PaintState` keep the nested loops of the Rust methods and are proved
  against the functions of `Torus` and `Render`.
- `Control` (control.dfy): `main`'s locals `playing` and `start_time`, key
  dispatch, the frame tick, and runs of key and clock events.
- `Patterns` (patterns.dfy): small grids run through the rule.

Where the code departs from Conway's rules or from what the program itself
advertises, the model follows the code:

- **Diagonal neighbours only.** The test at src/main.rs:79-81 needs
  `row_step != 0 && col_step != 0`. So only the four diagonal cells are
  counted, and the count lies in [0, 4], not [0, 8]. On grids one or two
  cells wide or high, one cell can be counted more than once. As a result the
  2 × 2 block is not a still life (`Patterns.BlockIsNotStill`), and the 3 × 3
  vertical blinker dies in one step instead of turning horizontal
  (`Patterns.VerticalBlinkerDies`).
- **Unknown keys print numbers.** For an unrecognised byte `a: u8`,
  `write!(stdout, "{}", a)` prints its decimal value ("114" for `r`), not the
  byte itself.
- **No reset key.** The banner offers "r to reset", but no key resets the grid.
- **Tick resync.** After a frame, `start_time` becomes a new clock reading
  taken after painting. It does not advance by exactly one interval.
- **Quit is unreachable once playing.** After `s`, input is never read again,
  so a quit command can no longer take effect (`Control.PlayingNeverQuits`).

## Model

| member | source | states |
|---|---|---|
| `Terminal.ByteText` | src/main.rs:186 | an echoed byte is printed as one to three decimal digits whose value is the byte, with no leading zero (so "0" only for byte 0) |
| `Terminal.DecimalRoundTrip` | src/main.rs:186 | reading the printed decimal text back gives the number printed |
| `Torus.TruncRem` | src/main.rs:72-77 | Rust's `%` is the Euclidean remainder or that minus n, strictly between −n and n, with the sign of the dividend (so a multiple of n gives 0) |
| `Torus.Window` | src/main.rs:72-77 | `((i + step) % n + n) % n`, computed with Rust's `%`, always lies in [0, n) and equals the Euclidean `(i + step) mod n` |
| `Torus.WindowWrapsAtEdges` | src/main.rs:72-77 | row 0 with step −1 maps to n − 1; the last row with step +1 maps to 0 |
| `Torus.RingSteps` | src/main.rs:72-77 | on a ring of n positions, the ±1 neighbours of i are i ± 1, except at the two ends, where they wrap |
| `Torus.Neighbours` | src/main.rs:65-89 | the count of live cells among the four wrapped diagonal positions is at most 4 |
| `Torus.Contribution` | src/main.rs:79-84 | one loop pass adds at most 1, and only when both steps are non-zero |
| `Torus.NineStepsCountDiagonals` | src/main.rs:66-88 | the nine step pairs under the code's test add up to exactly the diagonal count |
| `Torus.NeighboursIgnoreRowAndColumn` | src/main.rs:79-81 | on grids at least 2 × 2, the count is unchanged by any change to the cell's own row or column, so the centre and the orthogonal cells are never counted |
| `Torus.SingleCellCountedFourTimes` | src/main.rs:72-84 | on a 1 × 1 grid, a live cell counts itself four times |
| `Torus.NextCell` | src/main.rs:100-107 | a cell is alive next exactly when it has 3 neighbours, or is alive with 2 |
| `Torus.NextGen` | src/main.rs:91-115 | the next generation has the same number of rows, each of the same width |
| `Torus.NextGenCell` | src/main.rs:98-109 | a next-generation cell is alive exactly when (alive and n ∈ {2,3}) or (dead and n = 3), with n counted on the old grid |
| `Torus.AllDeadStaysDead` | src/main.rs:91-115 | the empty grid is a fixed point of evolve |
| `Torus.AllAliveDies` | src/main.rs:91-115 | a full grid becomes empty in one step, because every cell counts four |
| `Torus.LonelyCellDies` | src/main.rs:98-109 | a cell with no live diagonal neighbour is dead next |
| `Render.ExpandAt` | src/main.rs:51-57 | the k-th painted cell is a cursor move at instruction 2k, then the glyph at 2k + 1 |
| `Render.ExpandGlyphs` | src/main.rs:51-57 | one glyph is written per painted position, and no clear |
| `Render.ExpandCursorMove` | src/main.rs:51-57 | a cursor move to 1-based (x, y) occurs exactly for position (y − 1, x − 1) |
| `Render.RowCellsExact` | src/main.rs:49-59 | a row lists a position exactly when that cell of the row is alive |
| `Render.LiveCellsExact` | src/main.rs:48-60 | the grid lists a position exactly when that cell is alive |
| `Render.RowCellsOrdered` | src/main.rs:49-59 | the cells of a row are listed left to right |
| `Render.LiveCellsOrdered` | src/main.rs:48-60 | the cells are listed in strictly increasing row-major order, each once |
| `Render.LiveCellsCount` | src/main.rs:48-60 | as many cells are listed as the grid has live cells |
| `Render.PaintedCounts` | src/main.rs:46-62 | the paint output is one clear first, then one glyph per live cell, and 1 + 2·(live cells) instructions in all |
| `Render.PaintedCursorMoves` | src/main.rs:46-62 | a cursor move to 1-based (x, y) is painted exactly when cell (y − 1, x − 1) is alive; dead cells emit nothing |
| `Render.PaintedAt` | src/main.rs:46-62 | the k-th live cell in row-major order is painted at instructions 2k + 1 (its cursor move) and 2k + 2 (the glyph) |
| `Render.Banner` | src/main.rs:21-44 | the banner exists exactly when width ≥ 33 and height ≥ 4 (otherwise the `u16` subtraction underflows). It has ten instructions: a clear first, bold before the title and the style reset right after it, the three texts, a hidden cursor last, and coordinates that fit in `u16` |
| `Render.BannerLayout` | src/main.rs:26-39 | each line is centred, up to rounding down; the author is on row height/2, the title two rows above and the instructions two rows below |
| `Life.Game.constructor` | src/main.rs:161-165 | a game over a grid of `height` rows of `width` cells |
| `Life.Game.GetNeighbours` | src/main.rs:65-89 | the nested loops over the steps return exactly the diagonal count, at most 4 |
| `Life.Game.Evolve` | src/main.rs:91-116 | the state becomes the next generation of the old state; width, height and shape are preserved |
| `Life.Game.PaintState` | src/main.rs:46-63 | the output is exactly the painted form of the current state, and the game is not modified |
| `Control.Launch` | src/main.rs:138-168 | start-up is stopped, with `start_time` = now, the grid as seeded and the banner on screen; it panics, writing nothing, when the banner does |
| `Control.Dispatch` | src/main.rs:174-187 | `q` quits, writing nothing; `c` outputs only a clear; `s` sets playing, sets `start_time` to now and paints; `a` outputs the banner, or panics writing nothing when it underflows; any other byte writes exactly its decimal text `ByteText`; no key changes the grid |
| `Control.ResetKeyIsEchoed` | src/main.rs:174-187 | the advertised `r` key does nothing but print "114" |
| `Control.Tick` | src/main.rs:194-197 | a frame fires only when now − `start_time` > 200; it evolves, paints the new grid and sets `start_time` to the later clock reading; otherwise nothing changes; a clock behind `start_time` panics in a debug build, writing nothing |
| `Control.Step` | src/main.rs:171-202 | bytes are handled only while stopped and clock readings only while playing; once playing, nothing quits and playback continues |
| `Control.Run` | src/main.rs:171-205 | a run of events keeps the grid's shape |
| `Control.RunConcat` | src/main.rs:171-205 | running two runs of events one after the other is running their concatenation: a quit or a panic in the first ends it with what was written so far, otherwise the second continues from the first's state, after its output |
| `Control.OutputBeforeTheEnd` | src/main.rs:174-197 | output written before the program ends is kept: `c` then `q` ends with the cleared screen, and `s` then a clock reading behind `start_time` panics after the grid was painted |
| `Control.PlayingNeverQuits` | src/main.rs:192-202 | once autoplay has started, no sequence of events ends in a quit or stops playback |
| `Control.QuitWhileStopped` | src/main.rs:174-176 | while stopped, `q` ends the program at once, writing nothing, whatever follows |
| `Control.StartThenOneFrame` | src/main.rs:179-197 | after `s` at t0, a reading at exactly t0 + 200 does not fire and one at t0 + 250 fires exactly one evolve and paint; `start_time` becomes the later clock reading |
| `Patterns.BlockIsNotStill` | src/main.rs:79-109 | the 2 × 2 block is not a fixed point: its top-left cell counts one neighbour and dies |
| `Patterns.VerticalBlinkerDies` | src/main.rs:79-109 | the 3 × 3 vertical blinker becomes the empty grid in one step |

## Left out

- Terminal plumbing from termion: raw mode, `terminal_size`, `write!`, `flush`, `stdin().bytes()`. Output is a sequence of abstract instructions, not escape bytes. Width and height are parameters.
- Failures of writes, flushes and reads (`unwrap` on I/O results); they terminate the process and are outside the model.
- Random seeding (src/main.rs:147-159): it uses floats and a random source. Any well-shaped initial grid is taken as a parameter instead.
- `get_time_now` (src/main.rs:119-129): clock readings are `nat` parameters. Its panic when the clock is before the epoch is not modelled.
- The outer and inner loops of `main` run forever. They are modelled as finite runs of events (`Control.Run`), not as non-terminating loops.
- The debug `println!` at src/main.rs:173.
- `Render.Banner`: models the debug-build panic on `u16` underflow. In a release build the subtraction would wrap around, and that is not modelled.
- `Control.Tick`: models the debug-build panic when the clock reads earlier than `start_time`. In a release build the `u64` subtraction at src/main.rs:194 would wrap to a huge elapsed time and fire a frame; that is not modelled.
- `Life.Game.GetNeighbours`: requires coordinates below `i32::MAX`. Larger `usize` coordinates would be truncated by the `as i32` cast, which is not modelled. `evolve` only passes coordinates below the `u16` height and width.
- `Life.Game.PaintState`: requires width and height within `u16`, so the `as u16` casts of the cursor coordinates never truncate.

=== FILE: control.dfy ===
/** The control rules of `main`: its two mutable locals `playing` and
    `start_time`, the reaction to one input byte, the frame-tick decision of
    the autoplay loop, and runs of input and clock events through both.

    Clock readings are parameters (`now`, `stamp`) and output is the sequence
    of drawing instructions written to the terminal. */
module Control {
  import opened Terminal
  import opened Torus
  import opened Render

  /** `TIME_BETWEEN_FRAMES_IN_MILLISECONDS`. */
  const FrameInterval: nat := 200

  const KeyQuit: byte := 'q' as byte
  const KeyClear: byte := 'c' as byte
  const KeyStart: byte := 's' as byte
  const KeyBanner: byte := 'a' as byte

  predicate IsCommand(key: byte) {
    key == KeyQuit || key == KeyClear || key == KeyStart || key == KeyBanner
  }

  /** `main`'s locals `playing` and `start_time` (milliseconds). */
  datatype Playback = Playback(playing: bool, startTime: nat)

  /** What the program does next, with the instructions it wrote on the
      way: it returns (quit), it panics, or it carries on with new locals and
      grid. */
  datatype Reaction =
    | Quit(output: seq<Instr>)
    | Crash(output: seq<Instr>)
    | Next(playback: Playback, grid: Grid, output: seq<Instr>)

  /** `r`, with `out` written before it. */
  function WithPrefix(out: seq<Instr>, r: Reaction): (r': Reaction)
    ensures r'.output == out + r.output
    ensures r'.Quit? == r.Quit? && r'.Crash? == r.Crash?
    ensures r'.Next? ==> r'.playback == r.playback && r'.grid == r.grid
  {
    match r
    case Quit(o) => Quit(out + o)
    case Crash(o) => Crash(out + o)
    case Next(p, g, o) => Next(p, g, out + o)
  }

  /** Start-up once the grid is seeded: stopped, `start_time` read from the
      clock, and the banner on screen (which panics on too small a terminal). */
  function Launch(grid: Grid, width: nat, height: nat, now: nat): (r: Reaction)
    requires Shaped(grid, height, width) && width <= U16_MAX && height <= U16_MAX
    ensures !r.Quit?
    ensures r.Crash? <==> width < |Instructions| || height < 4
    ensures r.Crash? ==> r.output == []
    ensures r.Next? ==> !r.playback.playing && r.playback.startTime == now && r.grid == grid
    ensures r.Next? ==> r.output == Banner(width, height).value
  {
    match Banner(width, height)
    case None => Crash([])
    case Some(screen) => Next(Playback(false, now), grid, screen)
  }

  /** The reaction to one input byte: `q` quits, `c` clears the screen, `s`
      starts autoplay from `now` and paints the grid, `a` redraws the banner,
      and any other byte is printed as its decimal value. No key changes the
      grid. */
  function Dispatch(p: Playback, grid: Grid, width: nat, height: nat, key: byte, now: nat): (r: Reaction)
    requires Shaped(grid, height, width) && width <= U16_MAX && height <= U16_MAX
    ensures r.Quit? <==> key == KeyQuit
    ensures r.Crash? <==> key == KeyBanner && (width < |Instructions| || height < 4)
    ensures !r.Next? ==> r.output == []
    ensures r.Next? ==> r.grid == grid
    ensures r.Next? ==> (r.playback.playing <==> p.playing || key == KeyStart)
    ensures r.Next? ==> r.playback.startTime == if key == KeyStart then now else p.startTime
    ensures r.Next? && key == KeyStart ==> r.output == Painted(grid)
    ensures r.Next? && key == KeyClear ==> r.output == [Clear]
    ensures r.Next? && key == KeyBanner ==> r.output == Banner(width, height).value
    ensures r.Next? && !IsCommand(key) ==> r.output == [Write(ByteText(key))]
  {
    if key == KeyQuit then Quit([])
    else if key == KeyClear then Next(p, grid, [Clear])
    else if key == KeyStart then Next(Playback(true, now), grid, Painted(grid))
    else if key == KeyBanner then
      match Banner(width, height)
      case None => Crash([])
      case Some(screen) => Next(p, grid, screen)
    else Next(p, grid, [Write(ByteText(key))])
  }

  /** The banner advertises "r to reset", but no key resets the grid: `r`
      (byte 114) is printed back as the text "114" and nothing else happens. */
  lemma ResetKeyIsEchoed(p: Playback, grid: Grid, width: nat, height: nat, now: nat)
    requires Shaped(grid, height, width) && width <= U16_MAX && height <= U16_MAX
    ensures Dispatch(p, grid, width, height, 'r' as byte, now) == Next(p, grid, [Write("114")])
  {
    var key: byte := 'r' as byte;
    assert key as nat == 114 && !IsCommand(key);
    assert Decimal(1) == "1";
    assert Decimal(11) == Decimal(1) + [DigitChar(1)] == "11";
    assert Decimal(114) == Decimal(11) + [DigitChar(4)] == "114";
    assert ByteText(key) == "114";
  }

  /** One pass of the autoplay loop: with `now` read from the clock, a frame
      is due only when strictly more than `FrameInterval` milliseconds have
      passed since `start_time`; then the grid evolves, is repainted, and
      `start_time` becomes `stamp`, the clock read after painting. A clock
      behind `start_time` makes the `u64` subtraction panic (in a debug
      build). */
  function Tick(p: Playback, grid: Grid, width: nat, height: nat, now: nat, stamp: nat): (r: Reaction)
    requires Shaped(grid, height, width) && p.playing
    ensures !r.Quit?
    ensures r.Crash? <==> now < p.startTime
    ensures r.Crash? ==> r.output == []
    ensures r.Next? ==> r.playback.playing && Shaped(r.grid, height, width)
    ensures r.Next? && now - p.startTime > FrameInterval ==>
              r.grid == NextGen(grid, height, width) && r.output == Painted(r.grid) &&
              r.playback.startTime == stamp
    ensures r.Next? && now - p.startTime <= FrameInterval ==> r == Next(p, grid, [])
  {
    if now < p.startTime then Crash([])
    else if now - p.startTime > FrameInterval then
      var next := NextGen(grid, height, width);
      Next(Playback(true, stamp), next, Painted(next))
    else Next(p, grid, [])
  }

  /** An input byte with the clock reading taken when it is handled, or a
      clock reading of the autoplay loop (`now` at the test, `stamp` after
      painting). */
  datatype Event = KeyPress(key: byte, now: nat) | ClockRead(now: nat, stamp: nat)

  datatype Session = Session(playback: Playback, grid: Grid)

  /** One event handled by the outer loop of `main`. Bytes are read only
      while stopped; once playing, the loop only reads the clock, so a key
      press changes nothing. */
  function Step(s: Session, width: nat, height: nat, e: Event): (r: Reaction)
    requires Shaped(s.grid, height, width) && width <= U16_MAX && height <= U16_MAX
    ensures r.Next? ==> Shaped(r.grid, height, width)
    ensures s.playback.playing ==> !r.Quit? && (r.Next? ==> r.playback.playing)
    ensures !s.playback.playing && e.ClockRead? ==> r == Next(s.playback, s.grid, [])
    ensures s.playback.playing && e.KeyPress? ==> r == Next(s.playback, s.grid, [])
  {
    if !s.playback.playing then
      match e
      case KeyPress(key, now) => Dispatch(s.playback, s.grid, width, height, key, now)
      case ClockRead(_, _) => Next(s.playback, s.grid, [])
    else
      match e
      case KeyPress(_, _) => Next(s.playback, s.grid, [])
      case ClockRead(now, stamp) => Tick(s.playback, s.grid, width, height, now, stamp)
  }

  /** A run of events from a session: the program ends at the first quit or
      panic, otherwise with the last state; either way with everything written
      on the way. */
  function Run(s: Session, width: nat, height: nat, events: seq<Event>): (r: Reaction)
    requires Shaped(s.grid, height, width) && width <= U16_MAX && height <= U16_MAX
    ensures r.Next? ==> Shaped(r.grid, height, width)
    decreases |events|
  {
    if events == [] then Next(s.playback, s.grid, [])
    else
      match Step(s, width, height, events[0])
      case Next(p, g, out) => WithPrefix(out, Run(Session(p, g), width, height, events[1..]))
      case ended => ended
  }

  /** Running `a` then `b` is running `a`, then, if it carried on, running
      `b` from where it left off, after the output of `a`. A quit or a panic
      in `a` ends the run with what `a` wrote. */
  lemma {:induction false} RunConcat(s: Session, width: nat, height: nat, a: seq<Event>, b: seq<Event>)
    requires Shaped(s.grid, height, width) && width <= U16_MAX && height <= U16_MAX
    ensures !Run(s, width, height, a).Next? ==> Run(s, width, height, a + b) == Run(s, width, height, a)
    ensures Run(s, width, height, a).Next? ==>
              var ra := Run(s, width, height, a);
              Run(s, width, height, a + b)
                == WithPrefix(ra.output, Run(Session(ra.playback, ra.grid), width, height, b))
    decreases |a|
  {
    if a == [] {
      assert a + b == b;
    } else {
      assert (a + b)[0] == a[0] && (a + b)[1..] == a[1..] + b;
      var r := Step(s, width, height, a[0]);
      if r.Next? {
        var s' := Session(r.playback, r.grid);
        RunConcat(s', width, height, a[1..], b);
        var ra' := Run(s', width, height, a[1..]);
        if ra'.Next? {
          var rb := Run(Session(ra'.playback, ra'.grid), width, height, b);
          assert r.output + (ra'.output + rb.output) == (r.output + ra'.output) + rb.output;
        }
      }
    }
  }

  /** Output written before a quit or a panic is kept: a clear then `q`
      leaves the cleared screen, and `s` followed by a clock reading behind
      `start_time` panics after the grid was painted. */
  lemma OutputBeforeTheEnd(g: Grid, width: nat, height: nat, t: nat, t0: nat, now: nat, stamp: nat)
    requires Shaped(g, height, width) && width <= U16_MAX && height <= U16_MAX
    requires now < t0
    ensures Run(Session(Playback(false, t), g), width, height,
                [KeyPress(KeyClear, t), KeyPress(KeyQuit, t)]) == Quit([Clear])
    ensures Run(Session(Playback(false, t), g), width, height,
                [KeyPress(KeyStart, t0), ClockRead(now, stamp)]) == Crash(Painted(g))
  {
    var quits := [KeyPress(KeyClear, t), KeyPress(KeyQuit, t)];
    assert quits[1..] == [KeyPress(KeyQuit, t)];
    var crashes := [KeyPress(KeyStart, t0), ClockRead(now, stamp)];
    assert crashes[1..] == [ClockRead(now, stamp)];
  }

  /** Once autoplay has started, nothing the user types is read again: no
      run of events ends in a quit, and playback never stops. */
  lemma {:induction false} PlayingNeverQuits(s: Session, width: nat, height: nat, events: seq<Event>)
    requires Shaped(s.grid, height, width) && width <= U16_MAX && height <= U16_MAX
    requires s.playback.playing
    ensures !Run(s, width, height, events).Quit?
    ensures Run(s, width, height, events).Next? ==> Run(s, width, height, events).playback.playing
    decreases |events|
  {
    if events != [] {
      var r := Step(s, width, height, events[0]);
      if r.Next? {
        PlayingNeverQuits(Session(r.playback, r.grid), width, height, events[1..]);
      }
    }
  }

  /** While stopped, `q` ends the program whatever follows it. */
  lemma QuitWhileStopped(s: Session, width: nat, height: nat, now: nat, rest: seq<Event>)
    requires Shaped(s.grid, height, width) && width <= U16_MAX && height <= U16_MAX
    requires !s.playback.playing
    ensures Run(s, width, height, [KeyPress(KeyQuit, now)] + rest) == Quit([])
  {
    assert ([KeyPress(KeyQuit, now)] + rest)[0] == KeyPress(KeyQuit, now);
  }

  /** Starting at `t0`, a clock reading exactly one interval later does not
      fire, and a reading 250 ms later fires exactly one generation, after
      which `start_time` is the clock read after painting, not `t0 + 200`. */
  lemma StartThenOneFrame(g: Grid, width: nat, height: nat, t: nat, t0: nat, stamp: nat)
    requires Shaped(g, height, width) && width <= U16_MAX && height <= U16_MAX
    ensures Run(Session(Playback(false, t), g), width, height,
                [KeyPress(KeyStart, t0), ClockRead(t0 + FrameInterval, t0 + FrameInterval),
                 ClockRead(t0 + 250, stamp)])
         == Next(Playback(true, stamp), NextGen(g, height, width),
                 Painted(g) + Painted(NextGen(g, height, width)))
  {
    var events := [KeyPress(KeyStart, t0), ClockRead(t0 + FrameInterval, t0 + FrameInterval),
                   ClockRead(t0 + 250, stamp)];
    var started := Session(Playback(true, t0), g);
    var next := NextGen(g, height, width);
    assert events[1..][1..][1..] == [];
    assert Run(Session(Playback(true, stamp), next), width, height, events[1..][1..][1..])
        == Next(Playback(true, stamp), next, []);
    assert Run(started, width, height, events[1..][1..])
        == Next(Playback(true, stamp), next, Painted(next));
    assert Run(started, width, height, events[1..])
        == Next(Playback(true, stamp), next, Painted(next));
  }
}

=== FILE: game.dfy ===
/** The `Game` struct: its dimensions and its cell matrix, updated in place
    by `evolve`. Each method follows the loops of its Rust counterpart and is
    proved against the functions of Torus and Render. */
module Life {
  import opened Terminal
  import opened Torus
  import opened Render

  class Game {
    var width: nat
    var height: nat
    var state: Grid

    /** `width` and `height` are `u16` values and `state` has `height` rows
        of `width` cells, as `main` builds it. */
    ghost predicate Valid()
      reads this
    {
      width <= U16_MAX && height <= U16_MAX && Shaped(state, height, width)
    }

    /** The struct literal of `main`, over a grid built elsewhere. */
    constructor (width: nat, height: nat, cells: Grid)
      requires width <= U16_MAX && height <= U16_MAX && Shaped(cells, height, width)
      ensures Valid()
      ensures this.width == width && this.height == height && state == cells
    {
      this.width := width;
      this.height := height;
      state := cells;
    }

    /** `get_neighbours`: the nine (row step, column step) pairs, each with
        its wrapped window and the code's test; only the diagonal pairs can
        add to the count. The `i32` arithmetic stays in range when the
        coordinates are below `I32_MAX`. */
    method GetNeighbours(row: nat, col: nat) returns (neighbours: nat)
      requires Valid() && height > 0 && width > 0
      requires row < I32_MAX && col < I32_MAX
      ensures neighbours == Neighbours(state, height, width, row, col)
      ensures neighbours <= 4
    {
      neighbours := 0;
      var ri := 0;
      while ri < |Steps|
        invariant 0 <= ri <= |Steps|
        invariant neighbours == RowsDone(state, height, width, row, col, ri)
      {
        var rowStep := Steps[ri];
        var ci := 0;
        while ci < |Steps|
          invariant 0 <= ci <= |Steps|
          invariant neighbours == RowsDone(state, height, width, row, col, ri)
                                + ColumnsDone(state, height, width, row, col, rowStep, ci)
        {
          var colStep := Steps[ci];
          var rowWindow := Window(row, rowStep, height);
          var colWindow := Window(col, colStep, width);
          if state[rowWindow][colWindow] && rowStep != 0 && colStep != 0 {
            neighbours := neighbours + 1;
          }
          assert ColumnsDone(state, height, width, row, col, rowStep, ci + 1)
              == ColumnsDone(state, height, width, row, col, rowStep, ci)
               + Contribution(state, height, width, row, col, rowStep, colStep);
          ci := ci + 1;
        }
        ri := ri + 1;
      }
      NineStepsCountDiagonals(state, height, width, row, col);
    }

    /** `evolve`: build the next generation row by row from the current
        state, reading every count from that one snapshot, then replace the
        state with it. */
    method Evolve()
      requires Valid()
      modifies this
      ensures Valid()
      ensures width == old(width) && height == old(height)
      ensures state == NextGen(old(state), height, width)
    {
      var newState: Grid := [];
      var rowI := 0;
      while rowI < |state|
        invariant Valid() && state == old(state)
        invariant width == old(width) && height == old(height)
        invariant 0 <= rowI <= |state|
        invariant |newState| == rowI
        invariant forall a :: 0 <= a < rowI ==> newState[a] == NextRow(state, height, width, a)
      {
        var row := state[rowI];
        var newRow: seq<bool> := [];
        var colI := 0;
        while colI < |row|
          invariant Valid() && state == old(state)
          invariant width == old(width) && height == old(height)
          invariant 0 <= colI <= |row| && row == state[rowI]
          invariant |newRow| == colI
          invariant forall b :: 0 <= b < colI ==> newRow[b] == NextRow(state, height, width, rowI)[b]
        {
          var currentCell := row[colI];
          var neighbours := GetNeighbours(rowI, colI);
          var newCell := false;
          if currentCell && (neighbours == 2 || neighbours == 3) {
            newCell := true;
          }
          if !currentCell && neighbours == 3 {
            newCell := true;
          }
          newRow := newRow + [newCell];
          colI := colI + 1;
        }
        newState := newState + [newRow];
        rowI := rowI + 1;
      }
      state := newState;
    }

    /** `paint_state`: clear, then a cursor move and the glyph for each live
        cell in row-major order. The game itself is left unchanged. */
    method PaintState() returns (output: seq<Instr>)
      requires Valid()
      ensures output == Painted(state)
    {
      output := [Clear];
      ghost var done: seq<Pos> := [];
      var rowI := 0;
      while rowI < |state|
        invariant 0 <= rowI <= |state|
        invariant done == LiveCells(state[..rowI])
        invariant output == [Clear] + Expand(done)
      {
        var row := state[rowI];
        ghost var rowsBefore := done;
        ghost var inRow: seq<Pos> := [];
        var colI := 0;
        assert row[..0] == [];
        while colI < |row|
          invariant 0 <= colI <= |row|
          invariant inRow == RowCells(row[..colI], rowI)
          invariant done == rowsBefore + inRow
          invariant output == [Clear] + Expand(done)
        {
          ghost var found: seq<Pos> := if row[colI] then [Pos(rowI, colI)] else [];
          ghost var prev := output;
          if row[colI] {
            output := output + [Goto(colI + 1, rowI + 1), Write(Glyph)];
          }
          PaintStep(prev, output, done, found, row[colI], rowI, colI);
          RowCellsStep(row, rowI, colI);
          inRow := inRow + found;
          done := done + found;
          colI := colI + 1;
        }
        assert row[..colI] == row;
        LiveCellsStep(state, rowI);
        rowI := rowI + 1;
      }
      assert state[..rowI] == state;
    }
  }
}

=== FILE: patterns.dfy ===
/** Small patterns run through the next-generation rule. Because the count
    covers the four diagonal cells only, the classic still lifes and
    oscillators of Conway's game do not behave classically here. */
module Patterns {
  import opened Torus

  /** A 5 × 5 grid whose live cells are exactly the given positions. */
  function FiveByFive(live: set<(nat, nat)>): (s: Grid)
    ensures Shaped(s, 5, 5)
    ensures forall i, j :: 0 <= i < 5 && 0 <= j < 5 ==> (s[i][j] <==> (i, j) in live)
  {
    seq(5, i => seq(5, j => (i, j) in live))
  }

  /** The 2 × 2 block, a still life of Conway's game, is not one here: its
      top-left cell sees a single live diagonal neighbour and dies. */
  lemma BlockIsNotStill()
    ensures var block := FiveByFive({(1, 1), (1, 2), (2, 1), (2, 2)});
      Neighbours(block, 5, 5, 1, 1) == 1 && NextGen(block, 5, 5) != block
  {
    var block := FiveByFive({(1, 1), (1, 2), (2, 1), (2, 2)});
    assert block[0][0] == false && block[0][2] == false && block[2][0] == false && block[2][2];
    assert Neighbours(block, 5, 5, 1, 1) == 1;
    assert !NextGen(block, 5, 5)[1][1];
  }

  /** The vertical blinker of a 3 × 3 torus (the middle column alive).
      Conway's rule turns it horizontal; here it dies out in one step: the
      live cells have no live diagonal neighbour and every dead cell has two. */
  lemma VerticalBlinkerDies()
    ensures var blinker := seq(3, i => seq(3, j => j == 1));
      Shaped(blinker, 3, 3) && NextGen(blinker, 3, 3) == AllDead(3, 3)
  {
    var blinker: Grid := seq(3, i => seq(3, j => j == 1));
    assert Shaped(blinker, 3, 3);
    var g := NextGen(blinker, 3, 3);
    var d := AllDead(3, 3);
    forall i | 0 <= i < 3
      ensures g[i] == d[i]
    {
      forall j | 0 <= j < 3
        ensures g[i][j] == d[i][j]
      {
        RingSteps(j, 3);
        var n := Neighbours(blinker, 3, 3, i, j);
        if j == 1 {
          assert n == 0;
        } else {
          assert n == 2;
        }
      }
    }
  }
}

=== FILE: render.dfy ===
/** What the game draws: the painted grid (`Game::paint_state`) and the
    title banner (`Game::get_main_screen`), as drawing instructions. */
module Render {
  import opened Terminal
  import opened Torus

  datatype Option<T> = None | Some(value: T)

  const Glyph: string := "#"
  const Title: string := "Conway's game of life."
  const Author: string := "by Sharp Rabbit"
  const Instructions: string := "q to quit, s to start, r to reset"

  /** A cell position, 0-based. */
  datatype Pos = Pos(row: nat, col: nat)

  /** Row-major order: `p` is painted before `q`. */
  predicate Before(p: Pos, q: Pos) {
    p.row < q.row || (p.row == q.row && p.col < q.col)
  }

  /** The live cells of `cells` (row `r` of a grid), left to right. */
  function RowCells(cells: seq<bool>, r: nat): seq<Pos> {
    if cells == [] then []
    else
      var last := |cells| - 1;
      RowCells(cells[..last], r) + (if cells[last] then [Pos(r, last)] else [])
  }

  /** The live cells of the grid, in the order `paint_state` visits them. */
  function LiveCells(s: Grid): seq<Pos> {
    if s == [] then []
    else
      var last := |s| - 1;
      LiveCells(s[..last]) + RowCells(s[last], last)
  }

  /** Visiting one more cell of a row appends it when it is alive. */
  lemma RowCellsStep(cells: seq<bool>, r: nat, k: nat)
    requires k < |cells|
    ensures RowCells(cells[..k + 1], r) == RowCells(cells[..k], r) + (if cells[k] then [Pos(r, k)] else [])
  {
    assert cells[..k + 1][..k] == cells[..k];
  }

  /** Visiting one more row appends that row's live cells. */
  lemma LiveCellsStep(s: Grid, k: nat)
    requires k < |s|
    ensures LiveCells(s[..k + 1]) == LiveCells(s[..k]) + RowCells(s[k], k)
  {
    assert s[..k + 1][..k] == s[..k];
  }

  /** The output after visiting one more cell extends the expansion of the
      cells visited so far. */
  lemma PaintStep(prev: seq<Instr>, next: seq<Instr>, done: seq<Pos>, found: seq<Pos>,
                  alive: bool, r: nat, c: nat)
    requires prev == [Clear] + Expand(done)
    requires found == if alive then [Pos(r, c)] else []
    requires next == if alive then prev + [Goto(c + 1, r + 1), Write(Glyph)] else prev
    ensures next == [Clear] + Expand(done + found)
  {
    ExpandAppend(done, found);
    if alive {
      assert found[..0] == [];
      assert Expand(found) == [Goto(c + 1, r + 1), Write(Glyph)];
    } else {
      assert done + found == done;
    }
  }

  /** Each position becomes a cursor move to its 1-based (column, row)
      followed by the glyph. */
  function Expand(ps: seq<Pos>): (out: seq<Instr>)
    ensures |out| == 2 * |ps|
  {
    if ps == [] then []
    else Expand(ps[..|ps| - 1]) + [Goto(ps[|ps| - 1].col + 1, ps[|ps| - 1].row + 1), Write(Glyph)]
  }

  /** The output of `paint_state`: clear the screen, then draw every live cell. */
  function Painted(s: Grid): seq<Instr> {
    [Clear] + Expand(LiveCells(s))
  }

  /** The number of live cells of the grid. */
  function Population(s: Grid): nat {
    if s == [] then 0 else Population(s[..|s| - 1]) + multiset(s[|s| - 1])[true]
  }

  lemma {:induction false} ExpandAppend(a: seq<Pos>, b: seq<Pos>)
    ensures Expand(a + b) == Expand(a) + Expand(b)
    decreases |b|
  {
    if b == [] {
      assert a + b == a;
    } else {
      var b' := b[..|b| - 1];
      assert (a + b)[..|a + b| - 1] == a + b';
      ExpandAppend(a, b');
    }
  }

  /** The `k`-th painted cell occupies instructions `2k` and `2k + 1`. */
  lemma {:induction false} ExpandAt(ps: seq<Pos>, k: nat)
    requires k < |ps|
    ensures Expand(ps)[2 * k] == Goto(ps[k].col + 1, ps[k].row + 1)
    ensures Expand(ps)[2 * k + 1] == Write(Glyph)
    decreases |ps|
  {
    if k < |ps| - 1 {
      var ps' := ps[..|ps| - 1];
      ExpandAt(ps', k);
      assert Expand(ps) == Expand(ps') + [Goto(ps[|ps| - 1].col + 1, ps[|ps| - 1].row + 1), Write(Glyph)];
    }
  }

  /** One glyph per position, and never a clear. */
  lemma {:induction false} ExpandGlyphs(ps: seq<Pos>)
    ensures multiset(Expand(ps))[Write(Glyph)] == |ps|
    ensures Clear !in Expand(ps)
    decreases |ps|
  {
    if ps != [] {
      var ps' := ps[..|ps| - 1];
      ExpandGlyphs(ps');
      var p := ps[|ps| - 1];
      var tail := [Goto(p.col + 1, p.row + 1), Write(Glyph)];
      assert Expand(ps) == Expand(ps') + tail;
      assert multiset(Expand(ps)) == multiset(Expand(ps')) + multiset(tail);
      assert Goto(p.col + 1, p.row + 1) != Write(Glyph);
    }
  }

  /** A cursor move to 1-based (x, y) occurs exactly for position (y - 1, x - 1). */
  lemma {:induction false} ExpandCursorMove(ps: seq<Pos>, x: nat, y: nat)
    ensures Goto(x, y) in Expand(ps) <==> 1 <= x && 1 <= y && Pos(y - 1, x - 1) in ps
    decreases |ps|
  {
    if ps != [] {
      var ps' := ps[..|ps| - 1];
      ExpandCursorMove(ps', x, y);
      var p := ps[|ps| - 1];
      assert ps == ps' + [p];
      assert Expand(ps) == Expand(ps') + [Goto(p.col + 1, p.row + 1), Write(Glyph)];
    }
  }

  /** A position is listed exactly when it is a live cell of that row. */
  lemma {:induction false} RowCellsExact(cells: seq<bool>, r: nat, p: Pos)
    ensures p in RowCells(cells, r) <==> p.row == r && p.col < |cells| && cells[p.col]
    decreases |cells|
  {
    if cells != [] {
      var last := |cells| - 1;
      RowCellsExact(cells[..last], r, p);
    }
  }

  /** A position is listed exactly when it is a live cell of the grid. */
  lemma {:induction false} LiveCellsExact(s: Grid, p: Pos)
    ensures p in LiveCells(s) <==> p.row < |s| && p.col < |s[p.row]| && s[p.row][p.col]
    decreases |s|
  {
    if s != [] {
      var last := |s| - 1;
      LiveCellsExact(s[..last], p);
      RowCellsExact(s[last], last, p);
    }
  }

  lemma {:induction false} RowCellsBounds(cells: seq<bool>, r: nat)
    ensures forall k :: 0 <= k < |RowCells(cells, r)| ==>
              RowCells(cells, r)[k].row == r && RowCells(cells, r)[k].col < |cells|
    decreases |cells|
  {
    if cells != [] {
      RowCellsBounds(cells[..|cells| - 1], r);
    }
  }

  lemma {:induction false} LiveCellsBounds(s: Grid)
    ensures forall k :: 0 <= k < |LiveCells(s)| ==> LiveCells(s)[k].row < |s|
    decreases |s|
  {
    if s != [] {
      LiveCellsBounds(s[..|s| - 1]);
      RowCellsBounds(s[|s| - 1], |s| - 1);
    }
  }

  /** The live cells of a row are listed in strictly increasing column order. */
  lemma {:induction false} RowCellsOrdered(cells: seq<bool>, r: nat)
    ensures forall a, b :: 0 <= a < b < |RowCells(cells, r)| ==>
              Before(RowCells(cells, r)[a], RowCells(cells, r)[b])
    decreases |cells|
  {
    if cells != [] {
      var last := |cells| - 1;
      RowCellsOrdered(cells[..last], r);
      RowCellsBounds(cells[..last], r);
    }
  }

  /** The live cells of the grid are listed in strictly increasing row-major
      order; in particular no cell is listed twice. */
  lemma {:induction false} LiveCellsOrdered(s: Grid)
    ensures forall a, b :: 0 <= a < b < |LiveCells(s)| ==> Before(LiveCells(s)[a], LiveCells(s)[b])
    decreases |s|
  {
    if s != [] {
      var last := |s| - 1;
      LiveCellsOrdered(s[..last]);
      LiveCellsBounds(s[..last]);
      RowCellsOrdered(s[last], last);
      RowCellsBounds(s[last], last);
    }
  }

  lemma {:induction false} RowCellsCount(cells: seq<bool>, r: nat)
    ensures |RowCells(cells, r)| == multiset(cells)[true]
    decreases |cells|
  {
    if cells != [] {
      var last := |cells| - 1;
      RowCellsCount(cells[..last], r);
      assert cells == cells[..last] + [cells[last]];
    }
  }

  /** One painted cell per live cell. */
  lemma {:induction false} LiveCellsCount(s: Grid)
    ensures |LiveCells(s)| == Population(s)
    decreases |s|
  {
    if s != [] {
      var last := |s| - 1;
      LiveCellsCount(s[..last]);
      RowCellsCount(s[last], last);
    }
  }

  /** What the painted output holds: one clear, first; as many glyphs as
      live cells; and nothing else but one cursor move per live cell. */
  lemma PaintedCounts(s: Grid)
    ensures Painted(s)[0] == Clear && multiset(Painted(s))[Clear] == 1
    ensures multiset(Painted(s))[Write(Glyph)] == Population(s)
    ensures |Painted(s)| == 1 + 2 * Population(s)
  {
    var e := Expand(LiveCells(s));
    ExpandGlyphs(LiveCells(s));
    LiveCellsCount(s);
    assert multiset(Painted(s)) == multiset([Clear]) + multiset(e);
    assert Write(Glyph) != Clear;
  }

  /** A cursor move to 1-based (x, y) is painted exactly when the cell at
      row y - 1, column x - 1 is alive. */
  lemma PaintedCursorMoves(s: Grid, x: nat, y: nat)
    ensures Goto(x, y) in Painted(s) <==> 1 <= y <= |s| && 1 <= x <= |s[y - 1]| && s[y - 1][x - 1]
  {
    var ps := LiveCells(s);
    ExpandCursorMove(ps, x, y);
    assert Goto(x, y) in Painted(s) <==> Goto(x, y) in Expand(ps);
    if 1 <= x && 1 <= y {
      LiveCellsExact(s, Pos(y - 1, x - 1));
    }
  }

  /** The `k`-th live cell in row-major order is painted by instructions
      `2k + 1` (the cursor move) and `2k + 2` (the glyph). */
  lemma PaintedAt(s: Grid, k: nat)
    requires k < |LiveCells(s)|
    ensures Painted(s)[2 * k + 1] == Goto(LiveCells(s)[k].col + 1, LiveCells(s)[k].row + 1)
    ensures Painted(s)[2 * k + 2] == Write(Glyph)
  {
    ExpandAt(LiveCells(s), k);
  }

  /** The banner of `get_main_screen`, or `None` when its `u16` arithmetic
      underflows (a panic in a debug build): the columns subtract the text
      lengths from the width and the first row subtracts 2 from half the height. */
  function Banner(width: nat, height: nat): (r: Option<seq<Instr>>)
    requires width <= U16_MAX && height <= U16_MAX
    ensures r.Some? <==> width >= |Instructions| && height >= 4
    ensures r.Some? ==> |r.value| == 10
    ensures r.Some? ==> r.value[0] == Clear && r.value[9] == HideCursor
    ensures r.Some? ==> r.value[1] == Bold && r.value[4] == ResetStyle
    ensures r.Some? ==>
              r.value[3] == Write(Title) && r.value[6] == Write(Author) && r.value[8] == Write(Instructions)
    ensures r.Some? ==>
              forall k :: 0 <= k < |r.value| && r.value[k].Goto? ==>
                r.value[k].col <= U16_MAX && r.value[k].row <= U16_MAX
  {
    if width < |Title| || width < |Author| || width < |Instructions| || height / 2 < 2 then None
    else
      Some([Clear, Bold,
            Goto((width - |Title|) / 2, height / 2 - 2), Write(Title), ResetStyle,
            Goto((width - |Author|) / 2, height / 2), Write(Author),
            Goto((width - |Instructions|) / 2, height / 2 + 2), Write(Instructions),
            HideCursor])
  }

  /** A text of length `len` written from column `x` is centred on a screen
      `width` wide, up to the one column lost to rounding down. */
  predicate Centred(x: nat, len: nat, width: nat) {
    2 * x + len <= width <= 2 * x + len + 1
  }

  /** The banner centres each line horizontally and stacks them two rows
      apart around the middle row. */
  lemma BannerLayout(width: nat, height: nat)
    requires width <= U16_MAX && height <= U16_MAX
    requires Banner(width, height).Some?
    ensures var b := Banner(width, height).value;
      b[2].Goto? && b[5].Goto? && b[7].Goto? &&
      Centred(b[2].col, |Title|, width) && Centred(b[5].col, |Author|, width) &&
      Centred(b[7].col, |Instructions|, width) &&
      b[5].row == height / 2 && b[2].row + 2 == b[5].row && b[7].row == b[5].row + 2
  {
  }
}

=== FILE: terminal.dfy ===
/** The terminal surface as the game sees it: the drawing instructions it
    writes (termion's escape sequences, kept abstract), input bytes, and the
    decimal text that Rust's `Display` produces for a `u8`. */
module Terminal {

  /** One input byte, as delivered by `stdin().bytes()`. */
  newtype byte = x: int | 0 <= x < 256

  /** A drawing instruction; the program's output strings are sequences of these. */
  datatype Instr =
    | Clear                          // clear::All
    | Bold                           // style::Bold
    | ResetStyle                     // style::Reset
    | HideCursor                     // cursor::Hide
    | Goto(col: nat, row: nat)       // cursor::Goto(x, y), 1-based
    | Write(text: string)            // literal text at the cursor

  predicate IsDigit(ch: char) {
    '0' <= ch <= '9'
  }

  function DigitChar(d: nat): (ch: char)
    requires d < 10
    ensures IsDigit(ch) && ch as int - '0' as int == d
  {
    ('0' as int + d) as char
  }

  function DigitValue(ch: char): (d: nat)
    requires IsDigit(ch)
    ensures d < 10 && DigitChar(d) == ch
  {
    ch as int - '0' as int
  }

  /** The decimal numeral of `n`, most significant digit first. */
  function Decimal(n: nat): (s: string)
    ensures 1 <= |s|
    ensures forall k :: 0 <= k < |s| ==> IsDigit(s[k])
    ensures s[0] == '0' ==> n == 0 && s == "0"
    decreases n
  {
    if n < 10 then [DigitChar(n)] else Decimal(n / 10) + [DigitChar(n % 10)]
  }

  /** Reads a string of digits back as a number (the inverse of Decimal). */
  function ParseDecimal(s: string): nat
    requires forall k :: 0 <= k < |s| ==> IsDigit(s[k])
  {
    if s == [] then 0
    else ParseDecimal(s[..|s| - 1]) * 10 + DigitValue(s[|s| - 1])
  }

  /** `s` is a string of digits whose value is `n`. */
  predicate Spells(s: string, n: nat) {
    (forall k :: 0 <= k < |s| ==> IsDigit(s[k])) && ParseDecimal(s) == n
  }

  lemma {:induction false} DecimalRoundTrip(n: nat)
    ensures ParseDecimal(Decimal(n)) == n
    decreases n
  {
    if n >= 10 {
      var s := Decimal(n);
      assert s[..|s| - 1] == Decimal(n / 10);
      DecimalRoundTrip(n / 10);
    }
  }

  lemma DecimalShort(n: nat)
    requires n < 1000
    ensures |Decimal(n)| <= 3
  {
    if n >= 10 {
      var m := n / 10;
      if m >= 10 {
        assert |Decimal(m / 10)| == 1;
        assert |Decimal(m)| == 2;
      }
    }
  }

  /** What `write!(out, "{}", b)` prints for a `u8`: its value in decimal,
      one to three digits, with no leading zero. */
  function ByteText(b: byte): (s: string)
    ensures 1 <= |s| <= 3
    ensures Spells(s, b as nat)
    ensures s[0] == '0' ==> b == 0
  {
    var n := b as nat;
    DecimalRoundTrip(n);
    DecimalShort(n);
    Decimal(n)
  }
}

=== FILE: torus.dfy ===
/** The grid of the game as a value: a toroidal matrix of cells, the
    wrapped coordinate arithmetic of `Game::get_neighbours`, the neighbour
    count it computes and the rule `Game::evolve` applies to every cell.

    The count is the code's, not textbook Life's: the test at
    src/main.rs:79-81 admits a step only when both the row step and the
    column step are non-zero, so only the four diagonal cells are counted. */
module Torus {

  /** `state: Vec<Vec<bool>>`, row-major; `true` is a live cell. */
  type Grid = seq<seq<bool>>

  /** Largest value of a `u16` (the type of `width` and `height`). */
  const U16_MAX: nat := 0xFFFF
  /** Largest value of an `i32` (the type of the window arithmetic). */
  const I32_MAX: nat := 0x7FFF_FFFF

  /** The steps both loops of `get_neighbours` run over. */
  const Steps: seq<int> := [-1, 0, 1]

  /** `height` rows of `width` cells each. */
  predicate Shaped(s: Grid, height: nat, width: nat) {
    |s| == height && forall i :: 0 <= i < |s| ==> |s[i]| == width
  }

  /** Rust's `%` on integers: the remainder truncates toward zero, so it
      carries the sign of the dividend and is either the Euclidean remainder
      or that remainder minus `n`. */
  function TruncRem(a: int, n: int): (r: int)
    requires n > 0
    ensures r == a % n || r == a % n - n
    ensures -n < r < n
    ensures a >= 0 ==> r >= 0
    ensures a <= 0 ==> r <= 0
  {
    if a >= 0 then a % n
    else
      var m := (-a) % n;
      TruncRemOfNegative(a, n);
      -m
  }

  lemma TruncRemOfNegative(a: int, n: int)
    requires n > 0 && a < 0
    ensures -((-a) % n) == a % n || -((-a) % n) == a % n - n
  {
    var k, m := (-a) / n, (-a) % n;
    assert -a == k * n + m;
    if m == 0 {
      assert a == (-k) * n + 0;
      ModUnique(a, -k, 0, n);
    } else {
      assert (-k - 1) * n == -(k * n) - n;
      assert a == (-k - 1) * n + (n - m);
      ModUnique(a, -k - 1, n - m, n);
    }
  }

  /** The Euclidean remainder is determined by any decomposition
      `a == q * n + r` with `0 <= r < n`. */
  lemma ModUnique(a: int, q: int, r: int, n: int)
    requires n > 0 && 0 <= r < n && a == q * n + r
    ensures a % n == r
  {
    var q', r' := a / n, a % n;
    assert q' * n + r' == q * n + r;
    if q' > q {
      MulAtLeast(q' - q, n);
    } else if q' < q {
      MulAtLeast(q - q', n);
    }
  }

  lemma MulAtLeast(k: int, n: int)
    requires k >= 1 && n >= 1
    ensures k * n >= n
  {
    if k > 1 {
      MulAtLeast(k - 1, n);
      assert k * n == (k - 1) * n + n;
    }
  }

  /** `((i + step) % n + n) % n` evaluated with Rust's `%`: the index
      `step` away from `i` on a ring of `n` positions, always in [0, n). */
  function Window(i: int, step: int, n: int): (r: int)
    requires n > 0
    ensures 0 <= r < n
    ensures r == (i + step) % n
  {
    var t := TruncRem(i + step, n);
    ShiftedRem(i + step, t, n);
    TruncRem(t + n, n)
  }

  /** Adding `n` to Rust's remainder gives a non-negative number with the
      same Euclidean remainder. */
  lemma ShiftedRem(x: int, t: int, n: int)
    requires n > 0 && t == TruncRem(x, n)
    ensures t + n >= 0 && (t + n) % n == x % n
  {
    if t == x % n {
      ModUnique(t + n, 1, x % n, n);
    } else {
      ModUnique(t + n, 0, x % n, n);
    }
  }

  /** The row above the first row is the last row, and the row below the
      last row is the first one (likewise for columns); away from the edges
      a step moves by one. */
  lemma WindowWrapsAtEdges(n: int)
    requires n > 0
    ensures Window(0, -1, n) == n - 1
    ensures Window(n - 1, 1, n) == 0
  {
    ModUnique(-1, -1, n - 1, n);
    ModUnique(n, 1, 0, n);
  }

  /** The two ring neighbours of position `i` on a ring of `n` positions. */
  lemma RingSteps(i: int, n: int)
    requires 0 <= i < n
    ensures (i - 1) % n == if i == 0 then n - 1 else i - 1
    ensures (i + 1) % n == if i == n - 1 then 0 else i + 1
  {
    if i == 0 { ModUnique(-1, -1, n - 1, n); } else { ModUnique(i - 1, 0, i - 1, n); }
    if i == n - 1 { ModUnique(n, 1, 0, n); } else { ModUnique(i + 1, 0, i + 1, n); }
  }

  /** 1 for a live cell, 0 for a dead one. */
  function Alive(cell: bool): nat {
    if cell then 1 else 0
  }

  /** The number of live cells among the four diagonal neighbours of
      (row, col), each coordinate wrapped around the torus. A cell is counted
      once per diagonal position it occupies, so on a grid one or two cells
      wide or high the same cell may be counted more than once. */
  function Neighbours(s: Grid, height: nat, width: nat, row: int, col: int): (n: nat)
    requires Shaped(s, height, width) && height > 0 && width > 0
    ensures n <= 4
  {
    var up, down := (row - 1) % height, (row + 1) % height;
    var left, right := (col - 1) % width, (col + 1) % width;
    Alive(s[up][left]) + Alive(s[up][right]) + Alive(s[down][left]) + Alive(s[down][right])
  }

  /** What one pass of the inner loop of `get_neighbours` adds to the count. */
  function Contribution(s: Grid, height: nat, width: nat, row: int, col: int,
                        rowStep: int, colStep: int): (c: nat)
    requires Shaped(s, height, width) && height > 0 && width > 0
    ensures c <= 1
    ensures c == 1 ==> rowStep != 0 && colStep != 0
  {
    if s[Window(row, rowStep, height)][Window(col, colStep, width)] && rowStep != 0 && colStep != 0
    then 1 else 0
  }

  /** The count after the inner loop has run over the first `k` column steps. */
  function ColumnsDone(s: Grid, height: nat, width: nat, row: int, col: int,
                       rowStep: int, k: nat): nat
    requires Shaped(s, height, width) && height > 0 && width > 0 && k <= |Steps|
  {
    if k == 0 then 0
    else ColumnsDone(s, height, width, row, col, rowStep, k - 1)
         + Contribution(s, height, width, row, col, rowStep, Steps[k - 1])
  }

  /** The count after the outer loop has run over the first `k` row steps. */
  function RowsDone(s: Grid, height: nat, width: nat, row: int, col: int, k: nat): nat
    requires Shaped(s, height, width) && height > 0 && width > 0 && k <= |Steps|
  {
    if k == 0 then 0
    else RowsDone(s, height, width, row, col, k - 1)
         + ColumnsDone(s, height, width, row, col, Steps[k - 1], |Steps|)
  }

  /** Running the nine (row step, column step) pairs with the code's test
      yields exactly the diagonal count. */
  lemma NineStepsCountDiagonals(s: Grid, height: nat, width: nat, row: int, col: int)
    requires Shaped(s, height, width) && height > 0 && width > 0
    ensures RowsDone(s, height, width, row, col, |Steps|) == Neighbours(s, height, width, row, col)
  {
    var up, down := Window(row, -1, height), Window(row, 1, height);
    var left, right := Window(col, -1, width), Window(col, 1, width);
    assert Steps[0] == -1 && Steps[1] == 0 && Steps[2] == 1;
    forall rowStep | rowStep in Steps
      ensures ColumnsDone(s, height, width, row, col, rowStep, 3)
           == (if rowStep == 0 then 0 else
                 Alive(s[Window(row, rowStep, height)][left]) + Alive(s[Window(row, rowStep, height)][right]))
    {
      assert ColumnsDone(s, height, width, row, col, rowStep, 1)
          == Contribution(s, height, width, row, col, rowStep, -1);
      assert ColumnsDone(s, height, width, row, col, rowStep, 2)
          == Contribution(s, height, width, row, col, rowStep, -1);
    }
    assert RowsDone(s, height, width, row, col, 1)
        == ColumnsDone(s, height, width, row, col, -1, 3);
    assert RowsDone(s, height, width, row, col, 2)
        == ColumnsDone(s, height, width, row, col, -1, 3);
  }

  /** The count never looks at the cell's own row or column: for a grid at
      least two cells high and wide, changing any cell in row `row` or column
      `col` (the cell itself and its four orthogonal neighbours included)
      leaves the count unchanged. */
  lemma NeighboursIgnoreRowAndColumn(s: Grid, t: Grid, height: nat, width: nat, row: nat, col: nat)
    requires Shaped(s, height, width) && Shaped(t, height, width)
    requires height >= 2 && width >= 2 && row < height && col < width
    requires forall i, j :: 0 <= i < height && 0 <= j < width && i != row && j != col ==>
               t[i][j] == s[i][j]
    ensures Neighbours(t, height, width, row, col) == Neighbours(s, height, width, row, col)
  {
    RingSteps(row, height);
    RingSteps(col, width);
    var up, down := (row - 1) % height, (row + 1) % height;
    var left, right := (col - 1) % width, (col + 1) % width;
    assert up != row && down != row;
    assert left != col && right != col;
  }

  /** On a 1 × 1 grid the single cell is its own diagonal neighbour four times. */
  lemma SingleCellCountedFourTimes(s: Grid)
    requires Shaped(s, 1, 1) && s[0][0]
    ensures Neighbours(s, 1, 1, 0, 0) == 4
  {
  }

  /** The rule applied to one cell (src/main.rs:100-107): survival on 2 or 3
      counted neighbours, birth on exactly 3. */
  function NextCell(alive: bool, n: nat): (next: bool)
    ensures next <==> n == 3 || (alive && n == 2)
  {
    (alive && (n == 2 || n == 3)) || (!alive && n == 3)
  }

  /** Row `i` of the next generation, computed from the snapshot `s`. */
  function NextRow(s: Grid, height: nat, width: nat, i: nat): (r: seq<bool>)
    requires Shaped(s, height, width) && i < height
    ensures |r| == width
  {
    seq(width, j requires 0 <= j < width => NextCell(s[i][j], Neighbours(s, height, width, i, j)))
  }

  /** The generation that follows `s`: every cell is decided from `s` alone. */
  function NextGen(s: Grid, height: nat, width: nat): (r: Grid)
    requires Shaped(s, height, width)
    ensures Shaped(r, height, width)
  {
    seq(height, i requires 0 <= i < height => NextRow(s, height, width, i))
  }

  /** A cell of the next generation is alive exactly when it was alive with
      2 or 3 counted neighbours, or dead with exactly 3. */
  lemma NextGenCell(s: Grid, height: nat, width: nat, i: nat, j: nat)
    requires Shaped(s, height, width) && i < height && j < width
    ensures NextGen(s, height, width)[i][j] <==>
              var n := Neighbours(s, height, width, i, j);
              (s[i][j] && (n == 2 || n == 3)) || (!s[i][j] && n == 3)
  {
  }

  function AllDead(height: nat, width: nat): (s: Grid)
    ensures Shaped(s, height, width)
    ensures forall i, j :: 0 <= i < height && 0 <= j < width ==> !s[i][j]
  {
    seq(height, i => seq(width, j => false))
  }

  /** The empty grid is a fixed point. */
  lemma AllDeadStaysDead(height: nat, width: nat)
    ensures NextGen(AllDead(height, width), height, width) == AllDead(height, width)
  {
    var d := AllDead(height, width);
    var g := NextGen(d, height, width);
    forall i | 0 <= i < height
      ensures g[i] == d[i]
    {
      forall j | 0 <= j < width
        ensures g[i][j] == d[i][j]
      {
        assert Neighbours(d, height, width, i, j) == 0;
      }
    }
  }

  /** A full grid dies out in one step: every cell counts four live diagonal
      neighbours, and four is overcrowding. */
  lemma AllAliveDies(s: Grid, height: nat, width: nat)
    requires Shaped(s, height, width)
    requires forall i, j :: 0 <= i < height && 0 <= j < width ==> s[i][j]
    ensures NextGen(s, height, width) == AllDead(height, width)
  {
    var g := NextGen(s, height, width);
    var d := AllDead(height, width);
    forall i | 0 <= i < height
      ensures g[i] == d[i]
    {
      forall j | 0 <= j < width
        ensures g[i][j] == d[i][j]
      {
        var up, down := (i - 1) % height, (i + 1) % height;
        var left, right := (j - 1) % width, (j + 1) % width;
        assert s[up][left] && s[up][right] && s[down][left] && s[down][right];
        assert Neighbours(s, height, width, i, j) == 4;
      }
    }
  }

  /** A cell none of whose diagonal neighbours is alive is dead in the next
      generation, whatever its state. */
  lemma LonelyCellDies(s: Grid, height: nat, width: nat, i: nat, j: nat)
    requires Shaped(s, height, width) && i < height && j < width
    requires !s[(i - 1) % height][(j - 1) % width] && !s[(i - 1) % height][(j + 1) % width]
    requires !s[(i + 1) % height][(j - 1) % width] && !s[(i + 1) % height][(j + 1) % width]
    ensures !NextGen(s, height, width)[i][j]
  {
    assert Neighbours(s, height, width, i, j) == 0;
  }
}
